=== FILE: README.md ===
# DDPG replay buffer and interaction schedule, in Dafny

This project models the part of `spinup/algos/tf1/ddpg/ddpg.py` that is not
TensorFlow numerics or the external simulation environment:

- the `ReplayBuffer` class: a fixed-capacity circular FIFO store of
  transitions, kept as six parallel per-slot columns (`raw`, `obs1`, `obs2`,
  `acts`, `rews`, `done`) with a write cursor `ptr`, a fill count `size` and a
  capacity `max_size`;
- the control flow of the `ddpg` training loop: random versus policy actions,
  the time-limit masking of the done flag, the episode-end reset, the trigger
  and count of gradient updates, epoch wrap-up and the save decision, and the
  stopping rule of a test episode;
- the agent-side numeric rules: the noisy, clamped action of `get_action` and
  the polyak target update.

Files:

- `wrappers.dfy`: `Option` and `Result`, used for every Python exception path.
- `py_arith.dfy`: Python's floor `//` and `%`, written out because Dafny's
  operators are Euclidean, plus the remainder facts the proofs use.
- `replay_buffer.dfy`: the buffer as an immutable datatype with `Init`,
  `Store`, `SampleBatch`, and the exact circular-overwrite theorem.
- `schedule.dfy`: the per-step rules as pure functions of `t`, `ep_len` and
  the hyper-parameters, with counting lemmas over whole runs.
- `agent.dfy`: the action clamp of `get_action` and the polyak target update.
- `training_loop.dfy`: one loop iteration as a `Step` of a state machine,
  `Run` and `Train` over a sequence of environment replies, and lemmas about
  whole training runs.

The environment (`reset`, `step`, `dataset_outputs[playhead]`),
`action_space.sample()`, the policy network's output, the Gaussian noise
and `np.random.randint` are all inputs. For randint, the caller supplies the
drawn indices, and a precondition keeps them in `[0, size)`.

Notes on the behaviour as written:

- The action is random iff `t <= start_steps`. So a run has `start_steps + 1`
  random steps, one more than the docstring's wording suggests
  (`Schedule.RandomStepsCount`).
- The episode-end test `d or ep_len == max_ep_len` runs after `d` has been
  masked. It still ends the episode exactly when the environment said done or
  the limit was reached (`Schedule.MaskedDoneFacts`).
- Sampling from an empty buffer is not undefined behaviour in the code.
  `randint(0, 0, n)` raises its empty-range `ValueError` for every `n != 0`,
  which the model reports as `EmptyRange`. numpy checks the range before it
  allocates the output, so a negative `n` gives the same error here. A
  negative `n` with a non-empty range is numpy's negative-dimensions error.
  An empty batch from an empty buffer succeeds, assuming numpy's zero-size
  early return.
- Hyper-parameters are not validated by the source. Division by zero
  (`steps_per_epoch`, `update_every` once `t >= update_after`, `save_freq`
  at a wrap-up), a negative `replay_size` or `batch_size` and a
  zero-capacity `store` are modelled as the errors Python would raise, in the
  order the code would raise them.

## Model

| member | source | states |
|---|---|---|
| PyArith.FloorDiv | spinup/algos/tf1/ddpg/ddpg.py:323 | `(t + 1) // steps_per_epoch` rounds toward negative infinity: `q * b <= a < q * b + b` for a positive divisor, the mirror image for a negative one |
| PyArith.FloorMod | spinup/algos/tf1/ddpg/ddpg.py:405-408 | Python's `%` completes `a == (a // b) * b + a % b` and takes the sign of the divisor |
| PyArith.FloorModZeroIffDivides | spinup/algos/tf1/ddpg/ddpg.py:375 | a `% x == 0` test means divisibility whatever the signs, so the model's Euclidean `%` can state the code's tests |
| ReplayBuffer.Init | spinup/algos/tf1/ddpg/ddpg.py:17-24 | a new buffer has `size` zero rows in every column, `ptr == size == 0`, and satisfies the buffer invariant; a negative size is refused |
| ReplayBuffer.Columns.Put | spinup/algos/tf1/ddpg/ddpg.py:27-32 | writing a transition at slot `i` of all six columns keeps them aligned, makes row `i` read back as that transition, and leaves every other row unchanged |
| ReplayBuffer.Store | spinup/algos/tf1/ddpg/ddpg.py:26-34 | `store` keeps the invariant (cursor in range, `size <= max_size`, columns aligned), moves `ptr` to `(ptr + 1) % max_size`, sets `size` to `min(size + 1, max_size)` so it never shrinks, writes the transition at slot `ptr` of all six columns and leaves every other slot unchanged; with capacity 0 the write is an index error |
| ReplayBuffer.StoreAll | spinup/algos/tf1/ddpg/ddpg.py:26-34 | any sequence of stores keeps the buffer invariant and the capacity, and never lowers the fill count |
| ReplayBuffer.CursorAfter | spinup/algos/tf1/ddpg/ddpg.py:33 | the cursor after `n` stores from slot 0 moves one slot per store and wraps to 0 after the last slot, so it always stays below the capacity |
| ReplayBuffer.CursorAfterIsMod | spinup/algos/tf1/ddpg/ddpg.py:24-33 | the step-by-step cursor after `n` stores equals the closed form `n % max_size` |
| ReplayBuffer.CursorAfterDistinct | spinup/algos/tf1/ddpg/ddpg.py:33 | two stores fewer than `max_size` apart write different slots |
| ReplayBuffer.StoreAllWindow | spinup/algos/tf1/ddpg/ddpg.py:24-34 | after `n` stores into an empty buffer of capacity `k`: `ptr == n % k` and `size == min(n, k)`. Each of the last `min(n, k)` transitions sits at slot `j % k`, where `j` is its insertion index, so older ones are overwritten. Slots never reached keep their initial zeros. |
| ReplayBuffer.StoreExtendsWindow | spinup/algos/tf1/ddpg/ddpg.py:24-34 | if a buffer holds the window of `ts`, one more `store` of `t` makes it hold the window of `ts + [t]`. The new transition lands at the old cursor, and the only slot it overwrites belongs to a transition that has left the window. |
| ReplayBuffer.CircularOverwriteExample | spinup/algos/tf1/ddpg/ddpg.py:24-34 | with capacity 3, storing A, B, C, D leaves [D, B, C], the cursor at 1 and the buffer full |
| ReplayBuffer.SampleBatch | spinup/algos/tf1/ddpg/ddpg.py:36-43 | the batch has `batch_size` rows and row `k` of every column comes from the same slot `idxs[k]`; an empty buffer with a non-zero batch size gives the empty-range error, and otherwise a negative batch size gives the negative-dimensions error, in the order randint checks them |
| Schedule.UsesPolicy | spinup/algos/tf1/ddpg/ddpg.py:329 | the policy acts at step `t` exactly when `t > start_steps`. `PolicyPersists` and `RandomStepsCount` state its consequences. |
| Schedule.RandomStepsCount | spinup/algos/tf1/ddpg/ddpg.py:329-335 | of the first `n` steps exactly `min(start_steps + 1, n)` take a uniformly random action (none if `start_steps < 0`) |
| Schedule.PolicyPersists | spinup/algos/tf1/ddpg/ddpg.py:329 | once the policy chooses the action it does so at every later step |
| Schedule.MaskedDone | spinup/algos/tf1/ddpg/ddpg.py:351 | the stored done flag is cleared at the length limit and passed through otherwise. `MaskedDoneFacts` states its consequences. |
| Schedule.EpisodeEnds | spinup/algos/tf1/ddpg/ddpg.py:364 | an episode ends on the masked done flag or at the length limit. `MaskedDoneFacts` shows that this is the same as the environment's done flag or the limit. |
| Schedule.MaskedDoneFacts | spinup/algos/tf1/ddpg/ddpg.py:348-364 | the stored done flag is false at `ep_len == max_ep_len` and otherwise equals the environment's; masking never raises a flag; the episode ends exactly when the environment said done or the limit is reached |
| Schedule.UpdatesAt | spinup/algos/tf1/ddpg/ddpg.py:375-380 | a step runs updates only if `t >= update_after` and `t % update_every == 0`, and then exactly `update_every` of them; a zero `update_every` fails only once `t >= update_after` |
| Schedule.UpdatesBeforeExact | spinup/algos/tf1/ddpg/ddpg.py:375-380 | for a positive `update_every`, after `n` steps the update total is `update_every` per multiple of `update_every` in `[max(update_after, 0), n)` |
| Schedule.UpdateRatio | spinup/algos/tf1/ddpg/ddpg.py:114-117 | for a positive `update_every`, past `update_after`, gradient steps and environment steps differ by less than `update_every` (the 1:1 ratio the docstring promises) |
| Schedule.RoundUp | spinup/algos/tf1/ddpg/ddpg.py:375 | the least multiple of `update_every` at or above `x`: the result is a multiple of `update_every` and lies in `[x, x + update_every)` |
| Schedule.WrapUpAt | spinup/algos/tf1/ddpg/ddpg.py:398 | step `t` wraps up an epoch iff `steps_per_epoch` divides `t + 1`; a zero `steps_per_epoch` fails |
| Schedule.EpochOf | spinup/algos/tf1/ddpg/ddpg.py:323 | the epoch number after step `t` (the same expression recurs at line 405) is the number of whole epochs in the first `t + 1` steps: for a positive `steps_per_epoch`: `epoch * steps_per_epoch <= t + 1 < (epoch + 1) * steps_per_epoch`, and it is never negative when in addition `t >= -1` |
| Schedule.EpochAtWrapUp | spinup/algos/tf1/ddpg/ddpg.py:398-405 | for a positive `steps_per_epoch`, at a wrap-up the epoch number is at least 1 and `epoch * steps_per_epoch == t + 1` |
| Schedule.WrapUpsCount | spinup/algos/tf1/ddpg/ddpg.py:398-405 | for a positive `steps_per_epoch`, `n` steps contain exactly `n / steps_per_epoch` wrap-ups |
| Schedule.LastStepWrapsUp | spinup/algos/tf1/ddpg/ddpg.py:311-323 | the last of `steps_per_epoch * epochs` steps wraps up with epoch number `epochs` |
| Schedule.SaveAt | spinup/algos/tf1/ddpg/ddpg.py:407-409 | the state is saved iff `epoch % save_freq == 0` or `epoch == epochs`, so the final epoch is always saved and `save_freq` 1 saves every epoch; a zero `save_freq` fails first |
| Agent.Clip | spinup/algos/tf1/ddpg/ddpg.py:244 | for a non-negative `act_limit`, `np.clip` to `[-act_limit, act_limit]` lands in that interval, is the identity inside it and saturates outside it; for a negative `act_limit` the bounds cross and the result is `act_limit` itself |
| Agent.ClipIdempotent | spinup/algos/tf1/ddpg/ddpg.py:244 | clamping an already clamped value changes nothing |
| Agent.ClipVec | spinup/algos/tf1/ddpg/ddpg.py:244 | the clamp acts per component, bounds every component for a non-negative `act_limit`, and leaves an in-range vector unchanged |
| Agent.GetAction | spinup/algos/tf1/ddpg/ddpg.py:241-244 | the action is the policy output plus scaled noise, clamped per component, so for a non-negative `act_limit` every component lies in `[-act_limit, act_limit]`; with noise scale 0 it is the clamped policy output |
| Agent.PolyakStep | spinup/algos/tf1/ddpg/ddpg.py:208-210 | each target parameter's distance to the main parameter is multiplied by `polyak`. For `0 <= polyak <= 1` the new target lies between the old one and main. For `0 <= polyak < 1` it is strictly closer to main unless it already equalled it. `polyak` 0 copies main and `polyak` 1 leaves the target unchanged. A target equal to main, as after the hard copy at initialisation, stays equal. |
| TrainingLoop.Step | spinup/algos/tf1/ddpg/ddpg.py:320-409 | one iteration keeps the loop invariant, including `ep_len >= 0` between steps, and `ep_len < max_ep_len` whenever `max_ep_len >= 1`. It advances `t` by one and stores exactly the transition it reports into the buffer. The stored done flag is masked, and the episode resets exactly on done or at the limit. Its update count, wrap-up, epoch and save decision follow the schedule rules. With sane hyper-parameters and a positive capacity it succeeds. |
| TrainingLoop.StepOutcome | spinup/algos/tf1/ddpg/ddpg.py:320-409 | a step fails exactly when it meets one of five hazards: a zero `steps_per_epoch`, a zero-capacity buffer, a zero `update_every` once `t >= update_after`, a negative `batch_size` at an update step, or a zero `save_freq` at a wrap-up. The error reported is the first of these in source order. |
| TrainingLoop.Run | spinup/algos/tf1/ddpg/ddpg.py:320-409 | a run of `n` steps keeps the invariant and the capacity, advances `t` by `n`, and yields one report per step, numbered in order and each following the schedule |
| TrainingLoop.RunSucceeds | spinup/algos/tf1/ddpg/ddpg.py:320-409 | with non-zero divisors, a non-negative batch size and a positive capacity no step raises |
| TrainingLoop.RunStoresInOrder | spinup/algos/tf1/ddpg/ddpg.py:355-358 | the buffer after a run is the initial buffer with the run's transitions stored in step order |
| TrainingLoop.TotalSteps | spinup/algos/tf1/ddpg/ddpg.py:311-320 | the loop runs `range(steps_per_epoch * epochs)`, which is empty when the product is negative |
| TrainingLoop.TotalStepsWrapUps | spinup/algos/tf1/ddpg/ddpg.py:311-320 | for a positive epoch length and `epochs >= 0`, the loop's steps contain exactly `epochs` wrap-ups |
| TrainingLoop.Train | spinup/algos/tf1/ddpg/ddpg.py:311-320 | training runs `steps_per_epoch * epochs` steps from `t = 0`. A negative `replay_size` is refused. Sane hyper-parameters with a positive `replay_size` never fail. Every report is numbered by its step and follows the schedule. |
| TrainingLoop.TrainBufferContents | spinup/algos/tf1/ddpg/ddpg.py:189-358 | after training with sane hyper-parameters, the buffer holds the last `min(n, replay_size)` stored transitions, each at slot `j % replay_size`, with `ptr == n % replay_size` and zeros elsewhere |
| TrainingLoop.CountsFollowSchedule | spinup/algos/tf1/ddpg/ddpg.py:329-398 | over a run, random actions, wrap-ups and updates total what the schedule predicts for steps `0 .. n-1` |
| TrainingLoop.TrainEpochs | spinup/algos/tf1/ddpg/ddpg.py:398-409 | with sane hyper-parameters, a positive `replay_size` and a positive `steps_per_epoch`, a run of `epochs >= 1` epochs wraps up exactly `epochs` times, and its last step wraps up epoch `epochs` and saves |
| TrainingLoop.TrainRandomSteps | spinup/algos/tf1/ddpg/ddpg.py:329-335 | a training run with sane hyper-parameters and a positive `replay_size` takes exactly `min(start_steps + 1, n)` random actions (none if `start_steps < 0`) |
| TrainingLoop.TrainUpdateRatio | spinup/algos/tf1/ddpg/ddpg.py:375-380 | over a training run with sane hyper-parameters, a positive `replay_size` and a positive `update_every`, once the run is past `update_after`, the gradient updates stay within `update_every` of the environment steps |
| TrainingLoop.TestEpisode | spinup/algos/tf1/ddpg/ddpg.py:268-297 | a test episode stops at the first step where done was reported or the limit is reached. When `max_ep_len >= 0` it never runs past `max_ep_len`. It returns the sum of its rewards. It gives `None` exactly when the environment's replies run out first. |

## Left out

- TensorFlow graph construction, the Bellman backup, the losses, the Adam optimisers and every `sess.run` (lines 175-221, 390-395): automatic differentiation and float32 numerics inside a foreign library. The model only counts the batch updates.
- Polyak averaging is stated over `real` on a flat parameter vector (`Agent.PolyakStep`). TensorFlow's float32 rounding is not modelled.
- Action arithmetic and episode returns are exact `real` arithmetic. This covers `get_action`'s float32 `a += noise_scale * randn` (`Agent.GetAction`), the training return `ep_ret += r` (`TrainingLoop.Step`'s `epRet` and `retAfterStep`) and the test return (`TrainingLoop.TestEpisode`). Float rounding, overflow to infinity and NaN are not modelled.
- Randomness (`np.random.randint`, `np.random.randn`, `action_space.sample()`) and the seeds: these are caller-supplied values.
- The environment (`env_fn`, `update`, `controllers`, `info`, `reset`, `step`, `playhead`, `dataset_outputs`) is external. Its replies are the `StepInput` values.
- `rolling_setpoints` (lines 223-234): unused (its call is commented out) and environment-dependent.
- `list_of_nums_to_string`, all `print`/`colorize` output, and `EpochLogger` storing, tabular logging, `save_state` and the TF saver: I/O. The model reports the save decision, not the saving.
- `test_agent`'s episode loop across `num_test_episodes` and the test environment's observations: external. One episode's stopping rule and return are modelled (`TrainingLoop.TestEpisode`).
- The argparse `__main__` block, `cc_project_runner.py` and `cc_foo.py`: configuration only.
- Array shapes (`obs_dim`, `act_dim`) and numpy's float32 casting on writes: buffer elements are abstract types, and the done flag is a `bool` rather than 0.0/1.0.
- Agent.Clip: NaN inputs are not modelled (Dafny `real` has no NaN), so the clamp's behaviour on NaN is not stated.
- TrainingLoop.TrainBufferContents, TrainingLoop.TrainEpochs, TrainingLoop.TrainRandomSteps and TrainingLoop.TrainUpdateRatio are stated for hyper-parameters under which no step can fail (`Sane`: non-zero `steps_per_epoch`, `update_every` and `save_freq` and a non-negative `batch_size`; in addition a positive `replay_size`). TrainingLoop.TrainEpochs also needs a positive `steps_per_epoch` and `epochs >= 1`, and TrainingLoop.TrainUpdateRatio a positive `update_every`. Runs that succeed for other reasons, for example `update_every == 0` with `update_after` beyond the run, are not covered.
- Schedule.WrapUpsCount and Schedule.EpochAtWrapUp are stated for a positive `steps_per_epoch` only. The loop accepts a negative one: with `steps_per_epoch = -3` and `epochs = -2` it runs 6 steps, and a wrap-up reports epoch -1. Those counts and epoch numbers are not stated.
- Schedule.UpdatesBeforeExact and Schedule.UpdateRatio are stated for a positive `update_every` only. A negative `update_every` runs no updates at all, which `Schedule.UpdatesAt`'s contract states per step.
- TrainingLoop.TestEpisode: with a negative `max_ep_len` the length limit never triggers, so only the done flags bound the episode's length.
- ReplayBuffer.SampleBatch: indices are supplied and constrained to `[0, size)` instead of being drawn uniformly. Uniformity is not stated.

=== FILE: agent.dfy ===
/**
 * The agent-side numeric rules of `ddpg`: the noisy, clamped action of
 * `get_action` and the polyak update of the target networks. Parameters and
 * actions are flattened vectors of reals.
 */
module Agent {
  /** `np.clip(a, -limit, limit)` on one component: `min(max(a, -limit), limit)`. */
  function Clip(a: real, limit: real): (r: real)
    ensures limit >= 0.0 ==> -limit <= r <= limit
    ensures -limit <= a <= limit ==> r == a
    ensures limit >= 0.0 && a > limit ==> r == limit
    ensures limit >= 0.0 && a < -limit ==> r == -limit
    ensures limit < 0.0 ==> r == limit
  {
    var lo := if a < -limit then -limit else a;
    if lo > limit then limit else lo
  }

  /** Clipping twice is clipping once. */
  lemma ClipIdempotent(a: real, limit: real)
    requires limit >= 0.0
    ensures Clip(Clip(a, limit), limit) == Clip(a, limit)
  {
  }

  /** The clamp applied to every component of an action vector. */
  function ClipVec(a: seq<real>, limit: real): (r: seq<real>)
    ensures |r| == |a|
    ensures forall i :: 0 <= i < |a| ==> r[i] == Clip(a[i], limit)
    ensures limit >= 0.0 ==> forall i :: 0 <= i < |r| ==> -limit <= r[i] <= limit
    ensures (forall i :: 0 <= i < |a| ==> -limit <= a[i] <= limit) ==> r == a
  {
    seq(|a|, i requires 0 <= i < |a| => Clip(a[i], limit))
  }

  /**
   * `get_action`: the policy's output plus `noise_scale` times the Gaussian
   * draw `noise`, clamped to `[-act_limit, act_limit]`. With `noise_scale == 0`
   * (the test-time setting) the action is the clamped policy output.
   */
  function GetAction(policyOut: seq<real>, noiseScale: real, noise: seq<real>, actLimit: real): (r: seq<real>)
    requires |noise| == |policyOut|
    ensures |r| == |policyOut|
    ensures forall i :: 0 <= i < |r| ==> r[i] == Clip(policyOut[i] + noiseScale * noise[i], actLimit)
    ensures actLimit >= 0.0 ==> forall i :: 0 <= i < |r| ==> -actLimit <= r[i] <= actLimit
    ensures noiseScale == 0.0 ==> r == ClipVec(policyOut, actLimit)
  {
    ClipVec(seq(|policyOut|, i requires 0 <= i < |policyOut| => policyOut[i] + noiseScale * noise[i]), actLimit)
  }

  // ---------------------------------------------------------------------------
  // Target networks

  /** The absolute value of a real. */
  function Abs(x: real): real {
    if x < 0.0 then -x else x
  }

  /**
   * One polyak step on a flattened parameter vector: each target parameter
   * moves to `polyak * target + (1 - polyak) * main`. Its distance to the main
   * parameter is scaled by `polyak`, so for `0 <= polyak < 1` the target moves
   * strictly closer to main without passing it, `polyak == 0` copies main, and
   * `polyak == 1` leaves the target where it is. In particular a target equal
   * to its main parameters, as after the hard copy at initialisation, stays put.
   */
  function PolyakStep(target: seq<real>, main: seq<real>, polyak: real): (r: seq<real>)
    requires |target| == |main|
    ensures |r| == |target|
    ensures forall i :: 0 <= i < |r| ==> r[i] - main[i] == polyak * (target[i] - main[i])
    ensures 0.0 <= polyak <= 1.0 ==> forall i :: 0 <= i < |r| ==>
      (target[i] <= main[i] ==> target[i] <= r[i] <= main[i]) &&
      (main[i] <= target[i] ==> main[i] <= r[i] <= target[i])
    ensures 0.0 <= polyak < 1.0 ==> forall i :: 0 <= i < |r| && target[i] != main[i] ==>
      Abs(r[i] - main[i]) < Abs(target[i] - main[i])
    ensures polyak == 0.0 ==> r == main
    ensures polyak == 1.0 ==> r == target
    ensures target == main ==> r == main
  {
    var r := seq(|target|, i requires 0 <= i < |target| => polyak * target[i] + (1.0 - polyak) * main[i]);
    forall i | 0 <= i < |r|
      ensures r[i] - main[i] == polyak * (target[i] - main[i])
      ensures 0.0 <= polyak <= 1.0 ==>
        (target[i] <= main[i] ==> target[i] <= r[i] <= main[i]) &&
        (main[i] <= target[i] ==> main[i] <= r[i] <= target[i])
      ensures 0.0 <= polyak < 1.0 && target[i] != main[i] ==> Abs(r[i] - main[i]) < Abs(target[i] - main[i])
    {
      PolyakCoordinate(target[i], main[i], polyak, r[i]);
    }
    r
  }

  /**
   * One coordinate of the polyak step: the distance to `m` is scaled by `p`,
   * the result lies between `t` and `m` for `0 <= p <= 1`, and it is strictly
   * closer to `m` than `t` was for `0 <= p < 1`.
   */
  lemma PolyakCoordinate(t: real, m: real, p: real, v: real)
    requires v == p * t + (1.0 - p) * m
    ensures v - m == p * (t - m)
    ensures 0.0 <= p <= 1.0 ==> (t <= m ==> t <= v <= m) && (m <= t ==> m <= v <= t)
    ensures 0.0 <= p < 1.0 && t != m ==> Abs(v - m) < Abs(t - m)
  {
    assert v - m == p * (t - m);
    if 0.0 <= p <= 1.0 {
      Interpolate(t, m, p, v);
    }
    if 0.0 <= p < 1.0 && t != m {
      var d := if t > m then t - m else m - t;
      MulNonneg(p, d);
      MulPos(1.0 - p, d);
      assert d - p * d == (1.0 - p) * d;
      if t > m {
        assert Abs(v - m) == p * d;
      } else {
        assert p * (t - m) == -(p * d);
        assert Abs(v - m) == p * d && Abs(t - m) == d;
      }
    }
  }

  /** `v = p * x + (1 - p) * y` lies between `x` and `y` when `0 <= p <= 1`. */
  lemma Interpolate(x: real, y: real, p: real, v: real)
    requires 0.0 <= p <= 1.0
    requires v == p * x + (1.0 - p) * y
    ensures x <= y ==> x <= v <= y
    ensures y <= x ==> y <= v <= x
  {
    assert v - x == (1.0 - p) * (y - x);
    assert v - y == -(p * (y - x));
    if x <= y {
      MulNonneg(1.0 - p, y - x);
      MulNonneg(p, y - x);
    } else {
      MulNonneg(1.0 - p, x - y);
      MulNonneg(p, x - y);
      assert v - x == -((1.0 - p) * (x - y));
      assert v - y == p * (x - y);
    }
  }

  lemma MulNonneg(a: real, b: real)
    requires a >= 0.0 && b >= 0.0
    ensures a * b >= 0.0
  {
  }

  lemma MulPos(a: real, b: real)
    requires a > 0.0 && b > 0.0
    ensures a * b > 0.0
  {
  }
}

=== FILE: py_arith.dfy ===
/**
 * Python's integer floor division `//` and modulo `%`, and the facts about
 * remainders that the buffer cursor and the loop schedule rely on.
 *
 * Python rounds the quotient toward negative infinity, so the remainder takes
 * the sign of the divisor; Dafny's `/` and `%` are Euclidean (the remainder is
 * never negative). The training loop applies `//` and `%` to hyper-parameters
 * that nothing forces to be positive, so the Python operators are written out.
 */
module PyArith {

  /** The exception Python raises for `//` or `%` by zero. */
  datatype ArithError = ZeroDivisionError

  /** `a // b`: the largest integer `q` with `q * b <= a` (for `b > 0`). */
  function FloorDiv(a: int, b: int): (q: int)
    requires b != 0
    ensures b > 0 ==> q * b <= a < q * b + b
    ensures b < 0 ==> q * b + b < a <= q * b
  {
    if b < 0 && a % b != 0 then a / b - 1 else a / b
  }

  /** `a % b`: the remainder that completes `a == (a // b) * b + a % b` and has the sign of `b`. */
  function FloorMod(a: int, b: int): (m: int)
    requires b != 0
    ensures a == FloorDiv(a, b) * b + m
    ensures b > 0 ==> 0 <= m < b
    ensures b < 0 ==> b < m <= 0
  {
    if b < 0 && a % b != 0 then a % b + b else a % b
  }

  /** A divisibility test `a % b == 0` means the same in Python and in Dafny, whatever the signs. */
  lemma FloorModZeroIffDivides(a: int, b: int)
    requires b != 0
    ensures FloorMod(a, b) == 0 <==> a % b == 0
  {
  }

  /** For a positive divisor the Python operators coincide with Dafny's. */
  lemma FloorAgreesForPositiveDivisor(a: int, b: int)
    requires b > 0
    ensures FloorDiv(a, b) == a / b
    ensures FloorMod(a, b) == a % b
  {
  }

  /** Division with remainder is unique: `m * k + s` with `0 <= s < k` has quotient `m` and remainder `s`. */
  lemma {:induction false} DivModUnique(a: int, k: int, m: int, s: int)
    requires k > 0
    requires 0 <= s < k
    requires a == m * k + s
    ensures a / k == m
    ensures a % k == s
  {
    var d := m - a / k;
    assert a == (a / k) * k + a % k;
    assert d * k == a % k - s;
    if d > 0 {
      MulAtLeastFactor(d, k);
      assert false;
    } else if d < 0 {
      MulAtLeastFactor(-d, k);
      assert false;
    }
  }

  /** `d * k >= k` for positive `d` and `k`. */
  lemma MulAtLeastFactor(d: int, k: int)
    requires d >= 1
    requires k > 0
    ensures d * k >= k
  {
  }

  /**
   * Advancing by one steps the remainder modulo `k` by one, wrapping to 0 at
   * `k`; the quotient grows by one exactly when the remainder wraps.
   */
  lemma ModSucc(n: nat, k: nat)
    requires k > 0
    ensures (n + 1) % k == if n % k + 1 < k then n % k + 1 else 0
    ensures (n + 1) / k == if (n + 1) % k == 0 then n / k + 1 else n / k
  {
    assert n == (n / k) * k + n % k;
    if n % k + 1 < k {
      DivModUnique(n + 1, k, n / k, n % k + 1);
    } else {
      DivModUnique(n + 1, k, n / k + 1, 0);
    }
  }

  /** A cursor inside `[0, k)` advanced modulo `k` moves to the next slot, or back to 0 from the last. */
  lemma CursorAdvance(p: nat, k: nat)
    requires p < k
    ensures (p + 1) % k == if p + 1 < k then p + 1 else 0
  {
    DivModUnique(p, k, 0, p);
    ModSucc(p, k);
  }

  /** `j` and `n` closer than `k` apart, `j` before `n`, leave different remainders modulo `k`. */
  lemma DistinctResidues(j: nat, n: nat, k: nat)
    requires k > 0
    requires j < n < j + k
    ensures j % k != n % k
  {
    var q, r, c := j / k, j % k, n - j;
    assert j == q * k + r;
    if r + c < k {
      DivModUnique(n, k, q, r + c);
    } else {
      DivModUnique(n, k, q + 1, r + c - k);
    }
  }
}

=== FILE: replay_buffer.dfy ===
/**
 * The DDPG experience replay buffer: a fixed-capacity circular FIFO store of
 * transitions kept as six parallel per-slot columns, a write cursor `ptr`, a
 * fill count `size` and a capacity `maxSize`.
 *
 * Element types are left abstract: `R` the raw dataset output, `O` an
 * observation, `A` an action and `W` a reward. The done flag is a `bool`
 * (the Python code writes it into a float32 column as 0.0 or 1.0).
 */
module ReplayBuffer {
  import opened Wrappers
  import opened PyArith

  /** One experience tuple, as handed to `store`. */
  datatype Transition<R, O, A, W> =
    Transition(raw: R, obs: O, act: A, rew: W, nextObs: O, done: bool)

  /** The six parallel columns; a sampled batch has the same shape. */
  datatype Columns<R, O, A, W> = Columns(
    raw: seq<R>, obs1: seq<O>, obs2: seq<O>, acts: seq<A>, rews: seq<W>, done: seq<bool>)
  {
    /** Every column has exactly `n` rows. */
    predicate Aligned(n: nat) {
      && |raw| == n && |obs1| == n && |obs2| == n
      && |acts| == n && |rews| == n && |done| == n
    }

    /** Row `i` read across all six columns. */
    function Row(i: nat): Transition<R, O, A, W>
      requires Aligned(|raw|) && i < |raw|
    {
      Transition(raw[i], obs1[i], acts[i], rews[i], obs2[i], done[i])
    }

    /** Overwrite row `i` of every column with the fields of `t`. */
    function Put(i: nat, t: Transition<R, O, A, W>): (c: Columns<R, O, A, W>)
      requires Aligned(|raw|) && i < |raw|
      ensures c.Aligned(|raw|)
      ensures c.Row(i) == t
      ensures forall j :: 0 <= j < |raw| && j != i ==> c.Row(j) == Row(j)
    {
      Columns(raw[i := t.raw], obs1[i := t.obs], obs2[i := t.nextObs],
              acts[i := t.act], rews[i := t.rew], done[i := t.done])
    }
  }

  datatype Buffer<R, O, A, W> = Buffer(cols: Columns<R, O, A, W>, ptr: nat, size: nat, maxSize: nat)

  /** The exceptions numpy raises on the buffer's paths. */
  datatype Error =
    | NegativeDimensions   // np.zeros / randint with a negative shape
    | IndexOutOfBounds     // writing slot 0 of a zero-capacity array
    | EmptyRange           // randint(0, 0, n) with n != 0: low >= high

  /**
   * The buffer invariant: columns aligned to the capacity, the cursor inside
   * the array (or 0 for a zero-capacity buffer), the fill count bounded by the
   * capacity, and, until the buffer is full, the cursor equal to the fill count.
   */
  predicate Valid<R, O, A, W>(b: Buffer<R, O, A, W>) {
    && b.cols.Aligned(b.maxSize)
    && (b.ptr < b.maxSize || b.ptr == 0)
    && b.size <= b.maxSize
    && (b.size < b.maxSize ==> b.ptr == b.size)
  }

  /** Slot `i` of a valid buffer. */
  function Slot<R, O, A, W>(b: Buffer<R, O, A, W>, i: nat): Transition<R, O, A, W>
    requires Valid(b) && i < b.maxSize
  {
    b.cols.Row(i)
  }

  /**
   * `ReplayBuffer(obs_dim, act_dim, size)`: `size` zero rows in every column,
   * cursor and fill count 0. A negative size is refused by `np.zeros`.
   */
  function Init<R, O, A, W>(size: int, zeroRaw: R, zeroObs: O, zeroAct: A, zeroRew: W)
    : (r: Result<Buffer<R, O, A, W>, Error>)
    ensures r.Failure? <==> size < 0
    ensures r.Failure? ==> r.error == NegativeDimensions
    ensures r.Success? ==> Valid(r.value) && r.value.maxSize == size
    ensures r.Success? ==> r.value.ptr == 0 && r.value.size == 0
    ensures r.Success? ==> forall i :: 0 <= i < size ==>
      Slot(r.value, i) == Transition(zeroRaw, zeroObs, zeroAct, zeroRew, zeroObs, false)
  {
    if size < 0 then Failure(NegativeDimensions)
    else
      Success(Buffer(
        Columns(seq(size, _ => zeroRaw), seq(size, _ => zeroObs), seq(size, _ => zeroObs),
                seq(size, _ => zeroAct), seq(size, _ => zeroRew), seq(size, _ => false)),
        0, 0, size))
  }

  /**
   * `store`: write `t` into slot `ptr` of every column, advance the cursor
   * modulo the capacity and grow the fill count up to the capacity. With
   * capacity 0 the first write is out of bounds.
   */
  function Store<R, O, A, W>(b: Buffer<R, O, A, W>, t: Transition<R, O, A, W>)
    : (r: Result<Buffer<R, O, A, W>, Error>)
    requires Valid(b)
    ensures r.Failure? <==> b.maxSize == 0
    ensures r.Failure? ==> r.error == IndexOutOfBounds
    ensures r.Success? ==> Valid(r.value) && r.value.maxSize == b.maxSize
    ensures r.Success? ==> r.value.ptr == (b.ptr + 1) % b.maxSize
    ensures r.Success? ==> r.value.size == if b.size < b.maxSize then b.size + 1 else b.maxSize
    ensures r.Success? ==> b.size <= r.value.size
    ensures r.Success? ==> Slot(r.value, b.ptr) == t
    ensures r.Success? ==> forall i :: 0 <= i < b.maxSize && i != b.ptr ==> Slot(r.value, i) == Slot(b, i)
  {
    if b.maxSize == 0 then Failure(IndexOutOfBounds)
    else
      CursorAdvance(b.ptr, b.maxSize);
      var ptr := (b.ptr + 1) % b.maxSize;
      var size := if b.size + 1 < b.maxSize then b.size + 1 else b.maxSize;
      Success(Buffer(b.cols.Put(b.ptr, t), ptr, size, b.maxSize))
  }

  /** Store the transitions `ts` in order into a buffer of positive capacity. */
  function StoreAll<R, O, A, W>(b: Buffer<R, O, A, W>, ts: seq<Transition<R, O, A, W>>)
    : (r: Buffer<R, O, A, W>)
    requires Valid(b) && b.maxSize > 0
    ensures Valid(r) && r.maxSize == b.maxSize
    ensures b.size <= r.size
    decreases |ts|
  {
    if |ts| == 0 then b
    else Store(StoreAll(b, ts[..|ts| - 1]), ts[|ts| - 1]).value
  }

  /**
   * Where the cursor stands after `n` stores into a buffer of capacity `k`
   * that started at slot 0: each store moves it one slot on, and from the
   * last slot back to 0.
   */
  function CursorAfter(n: nat, k: nat): (c: nat)
    requires k > 0
    ensures c < k
  {
    if n == 0 then 0
    else if CursorAfter(n - 1, k) + 1 < k then CursorAfter(n - 1, k) + 1
    else 0
  }

  /** The step-by-step cursor is the closed form `n % k` of `store`'s update. */
  lemma {:induction false} CursorAfterIsMod(n: nat, k: nat)
    requires k > 0
    ensures CursorAfter(n, k) == n % k
  {
    if n == 0 {
      DivModUnique(0, k, 0, 0);
    } else {
      CursorAfterIsMod(n - 1, k);
      ModSucc(n - 1, k);
    }
  }

  /** Stores fewer than `k` apart leave the cursor at different slots. */
  lemma CursorAfterDistinct(j: nat, n: nat, k: nat)
    requires k > 0
    requires j < n < j + k
    ensures CursorAfter(j, k) != CursorAfter(n, k)
  {
    CursorAfterIsMod(j, k);
    CursorAfterIsMod(n, k);
    DistinctResidues(j, n, k);
  }

  /**
   * `r` is what storing `ts` into the empty buffer `b` should give: the cursor
   * at `CursorAfter(|ts|, k)`, the fill count `min(|ts|, k)`, each of the last
   * `min(|ts|, k)` transitions at the slot the cursor pointed to when it was
   * stored, and every slot not yet reached as it was in `b`.
   */
  predicate HoldsWindow<R(==), O(==), A(==), W(==)>(r: Buffer<R, O, A, W>, b: Buffer<R, O, A, W>, ts: seq<Transition<R, O, A, W>>)
    requires Valid(r) && Valid(b) && r.maxSize == b.maxSize > 0
  {
    && r.ptr == CursorAfter(|ts|, b.maxSize)
    && r.size == (if |ts| < b.maxSize then |ts| else b.maxSize)
    && (forall j :: 0 <= j < |ts| && |ts| - b.maxSize <= j ==> Slot(r, CursorAfter(j, b.maxSize)) == ts[j])
    && (forall i :: |ts| <= i < b.maxSize ==> Slot(r, i) == Slot(b, i))
  }

  /**
   * Circular overwrite, stated exactly: storing `ts` into an empty buffer of
   * capacity `k` leaves the cursor at `|ts| % k` (see `CursorAfterIsMod`),
   * the fill count at `min(|ts|, k)`, the last `min(|ts|, k)` transitions in
   * the slots they were written to, and the unreached slots untouched.
   */
  lemma {:induction false} StoreAllWindow<R, O, A, W>(b: Buffer<R, O, A, W>, ts: seq<Transition<R, O, A, W>>)
    requires Valid(b) && b.maxSize > 0 && b.size == 0
    ensures HoldsWindow(StoreAll(b, ts), b, ts)
    decreases |ts|
  {
    if |ts| == 0 {
      assert b.ptr == 0;
    } else {
      var n := |ts| - 1;
      StoreAllWindow(b, ts[..n]);
      StoreExtendsWindow(b, StoreAll(b, ts[..n]), ts[..n], ts[n]);
      assert ts[..n] + [ts[n]] == ts;
    }
  }

  /** One more store extends the window by the stored transition. */
  lemma StoreExtendsWindow<R, O, A, W>(
    b: Buffer<R, O, A, W>, p: Buffer<R, O, A, W>, ts: seq<Transition<R, O, A, W>>, t: Transition<R, O, A, W>)
    requires Valid(b) && Valid(p) && p.maxSize == b.maxSize > 0
    requires HoldsWindow(p, b, ts)
    ensures HoldsWindow(Store(p, t).value, b, ts + [t])
  {
    var k, n, r, ts' := b.maxSize, |ts|, Store(p, t).value, ts + [t];
    CursorAdvance(p.ptr, k);
    assert r.ptr == CursorAfter(n + 1, k);
    forall j | 0 <= j < n + 1 && n + 1 - k <= j
      ensures Slot(r, CursorAfter(j, k)) == ts'[j]
    {
      var c := CursorAfter(j, k);
      if j == n {
        assert c == p.ptr;
      } else {
        CursorAfterDistinct(j, n, k);
        assert Slot(r, c) == Slot(p, c);
        assert ts'[j] == ts[j];
      }
    }
    forall i | n + 1 <= i < k
      ensures Slot(r, i) == Slot(b, i)
    {
      CursorBeforeWrap(n, k);
      assert Slot(r, i) == Slot(p, i);
    }
  }

  /** Before the first wrap the cursor stands at the number of stores made. */
  lemma {:induction false} CursorBeforeWrap(n: nat, k: nat)
    requires n < k
    ensures CursorAfter(n, k) == n
  {
    if n > 0 {
      CursorBeforeWrap(n - 1, k);
    }
  }

  /**
   * The worked example of a capacity-3 buffer: storing A, B, C, D leaves the
   * slots holding [D, B, C] with the cursor back at 1 and the buffer full.
   */
  lemma CircularOverwriteExample<R, O, A, W>(
    zeroRaw: R, zeroObs: O, zeroAct: A, zeroRew: W,
    ta: Transition<R, O, A, W>, tb: Transition<R, O, A, W>,
    tc: Transition<R, O, A, W>, td: Transition<R, O, A, W>)
    ensures Init(3, zeroRaw, zeroObs, zeroAct, zeroRew).Success?
    ensures var b := StoreAll(Init(3, zeroRaw, zeroObs, zeroAct, zeroRew).value, [ta, tb, tc, td]);
      && b.ptr == 1 && b.size == 3
      && Slot(b, 0) == td && Slot(b, 1) == tb && Slot(b, 2) == tc
  {
    var b0 := Init(3, zeroRaw, zeroObs, zeroAct, zeroRew).value;
    var ts := [ta, tb, tc, td];
    StoreAllWindow(b0, ts);
    assert CursorAfter(1, 3) == 1 && CursorAfter(2, 3) == 2 && CursorAfter(3, 3) == 0;
  }

  /**
   * `sample_batch`: gather, for each drawn index `idxs[k]`, row `idxs[k]` of
   * every column, so row `k` of the batch is one stored transition. The
   * draws of `np.random.randint(0, size, batch_size)` are supplied by the
   * caller and lie in `[0, size)`. randint returns early for a zero batch,
   * then refuses an empty range, and only then a negative batch size, so an
   * empty buffer reports the empty range whatever the sign of the batch.
   */
  method SampleBatch<R, O, A, W>(b: Buffer<R, O, A, W>, batchSize: int, idxs: seq<int>)
    returns (r: Result<Columns<R, O, A, W>, Error>)
    requires Valid(b)
    requires forall k :: 0 <= k < |idxs| ==> 0 <= idxs[k] < b.size
    requires batchSize >= 0 && b.size > 0 ==> |idxs| == batchSize
    ensures r.Failure? <==> batchSize < 0 || (b.size == 0 && batchSize != 0)
    ensures r.Failure? ==> r.error == if b.size == 0 then EmptyRange else NegativeDimensions
    ensures r.Success? ==> |idxs| == batchSize && r.value.Aligned(batchSize)
    ensures r.Success? ==> forall k :: 0 <= k < |idxs| ==> r.value.Row(k) == Slot(b, idxs[k])
  {
    if b.size == 0 && batchSize != 0 {
      return Failure(EmptyRange);
    }
    if batchSize < 0 {
      return Failure(NegativeDimensions);
    }
    assert |idxs| > 0 ==> 0 <= idxs[0] < b.size;
    var raw: seq<R>, obs1: seq<O>, obs2: seq<O>, acts: seq<A>, rews: seq<W>, done: seq<bool>;
    raw, obs1, obs2, acts, rews, done := [], [], [], [], [], [];
    var k := 0;
    while k < |idxs|
      invariant 0 <= k <= |idxs|
      invariant Columns(raw, obs1, obs2, acts, rews, done).Aligned(k)
      invariant forall m :: 0 <= m < k ==> Columns(raw, obs1, obs2, acts, rews, done).Row(m) == Slot(b, idxs[m])
    {
      var row := Slot(b, idxs[k]);
      raw, obs1, obs2 := raw + [row.raw], obs1 + [row.obs], obs2 + [row.nextObs];
      acts, rews, done := acts + [row.act], rews + [row.rew], done + [row.done];
      k := k + 1;
    }
    r := Success(Columns(raw, obs1, obs2, acts, rews, done));
  }
}

=== FILE: schedule.dfy ===
/**
 * The per-step rules of the DDPG interaction loop, as pure functions of the
 * step counter `t`, the episode length and the hyper-parameters: random versus
 * policy actions, masking of the time-limit done flag, the episode-end rule,
 * the gradient-update trigger, and epoch wrap-up and saving.
 */
module Schedule {
  import opened Wrappers
  import opened PyArith

  function Max(a: int, b: int): int { if a < b then b else a }

  // ---------------------------------------------------------------------------
  // Random or policy action

  /** Step `t` takes the policy's action only once `t` exceeds `start_steps`. */
  predicate UsesPolicy(t: int, startSteps: int) {
    t > startSteps
  }

  /** The number of steps among `0 .. n-1` whose action is sampled uniformly at random. */
  function RandomStepsBefore(n: nat, startSteps: int): nat {
    if n == 0 then 0
    else RandomStepsBefore(n - 1, startSteps) + (if UsesPolicy(n - 1, startSteps) then 0 else 1)
  }

  /**
   * Of the first `n` steps, exactly `start_steps + 1` are random (fewer if the
   * run is shorter, none if `start_steps < 0`): the test `t > start_steps`
   * lets step `start_steps` itself be random.
   */
  lemma {:induction false} RandomStepsCount(n: nat, startSteps: int)
    ensures RandomStepsBefore(n, startSteps) ==
      if startSteps + 1 <= 0 then 0 else if startSteps + 1 < n then startSteps + 1 else n
  {
    if n > 0 {
      RandomStepsCount(n - 1, startSteps);
    }
  }

  /** Once the policy acts, it acts at every later step. */
  lemma PolicyPersists(t: int, u: int, startSteps: int)
    requires t <= u
    ensures UsesPolicy(t, startSteps) ==> UsesPolicy(u, startSteps)
    ensures !UsesPolicy(u, startSteps) ==> !UsesPolicy(t, startSteps)
  {
  }

  // ---------------------------------------------------------------------------
  // Done flag and episode end

  /** The done flag that is stored: a time-limit termination is not a true terminal state. */
  function MaskedDone(d: bool, epLen: int, maxEpLen: int): bool {
    if epLen == maxEpLen then false else d
  }

  /** An episode ends on the (masked) done flag or on reaching the length limit. */
  predicate EpisodeEnds(maskedDone: bool, epLen: int, maxEpLen: int) {
    maskedDone || epLen == maxEpLen
  }

  /**
   * Masking never invents a termination, clears exactly the flags raised at the
   * length limit, and does not change whether the episode ends: the episode ends
   * exactly when the environment said done or the limit is reached.
   */
  lemma MaskedDoneFacts(d: bool, epLen: int, maxEpLen: int)
    ensures MaskedDone(d, epLen, maxEpLen) ==> d
    ensures epLen == maxEpLen ==> !MaskedDone(d, epLen, maxEpLen)
    ensures epLen != maxEpLen ==> MaskedDone(d, epLen, maxEpLen) == d
    ensures EpisodeEnds(MaskedDone(d, epLen, maxEpLen), epLen, maxEpLen) <==> d || epLen == maxEpLen
  {
  }

  // ---------------------------------------------------------------------------
  // Gradient updates

  /**
   * The number of batch updates run after step `t`: `update_every` of them when
   * `t >= update_after` and `t % update_every == 0`, none otherwise (and none for
   * a negative `update_every`, since `range` of it is empty). The modulo is only
   * evaluated once `t >= update_after`, so a zero `update_every` fails only then.
   */
  function UpdatesAt(t: int, updateAfter: int, updateEvery: int): (r: Result<nat, ArithError>)
    ensures r.Failure? <==> t >= updateAfter && updateEvery == 0
    ensures r.Success? && r.value > 0 ==> t >= updateAfter && updateEvery > 0 && t % updateEvery == 0
    ensures r.Success? && r.value > 0 ==> r.value == updateEvery
    ensures updateEvery > 0 && t >= updateAfter && t % updateEvery == 0 ==> r == Success(updateEvery)
  {
    if t >= updateAfter then
      if updateEvery == 0 then Failure(ZeroDivisionError)
      else
        FloorModZeroIffDivides(t, updateEvery);
        if FloorMod(t, updateEvery) == 0 then Success(Max(updateEvery, 0)) else Success(0)
    else Success(0)
  }

  /** The total number of batch updates after steps `0 .. n-1`. */
  function UpdatesBefore(n: nat, updateAfter: int, updateEvery: int): nat
    requires updateEvery > 0
  {
    if n == 0 then 0
    else UpdatesBefore(n - 1, updateAfter, updateEvery) + UpdatesAt(n - 1, updateAfter, updateEvery).value
  }

  /** The least multiple of `k` that is at least `x`. */
  function RoundUp(x: int, k: int): (r: int)
    requires k > 0
    ensures x <= r < x + k
    ensures r % k == 0
  {
    var q := (-x) / k;
    assert x + (-x) % k == (-q) * k;
    DivModUnique(x + (-x) % k, k, -q, 0);
    x + (-x) % k
  }

  /** Moving `x` up by one moves its round-up by `k` exactly when `x` itself is a multiple of `k`. */
  lemma RoundUpStep(x: int, k: int)
    requires k > 0
    ensures RoundUp(x + 1, k) == RoundUp(x, k) + (if x % k == 0 then k else 0)
  {
    var q, r := x / k, x % k;
    assert x == q * k + r;
    if r == 0 {
      assert -x == (-q) * k + 0;
      DivModUnique(-x, k, -q, 0);
      assert -(x + 1) == (-q - 1) * k + (k - 1);
      DivModUnique(-(x + 1), k, -q - 1, k - 1);
    } else {
      assert -x == (-q - 1) * k + (k - r);
      DivModUnique(-x, k, -q - 1, k - r);
      assert -(x + 1) == (-q - 1) * k + (k - r - 1);
      DivModUnique(-(x + 1), k, -q - 1, k - r - 1);
    }
  }

  /**
   * Exact update count: after `n` steps the updates run are `update_every` for
   * each multiple of `update_every` in `[max(update_after, 0), n)`, which is the
   * distance between the round-ups of the two ends.
   */
  lemma {:induction false} UpdatesBeforeExact(n: nat, updateAfter: int, updateEvery: int)
    requires updateEvery > 0
    ensures UpdatesBefore(n, updateAfter, updateEvery) ==
      RoundUp(Max(n, Max(updateAfter, 0)), updateEvery) - RoundUp(Max(updateAfter, 0), updateEvery)
  {
    if n > 0 {
      UpdatesBeforeExact(n - 1, updateAfter, updateEvery);
      if n - 1 >= Max(updateAfter, 0) {
        RoundUpStep(n - 1, updateEvery);
      }
    }
  }

  /**
   * The ratio of environment steps to gradient steps is locked to 1: once past
   * `update_after`, the number of batch updates differs from the number of
   * steps taken since then by less than `update_every`.
   */
  lemma UpdateRatio(n: nat, updateAfter: int, updateEvery: int)
    requires updateEvery > 0
    requires n >= Max(updateAfter, 0)
    ensures n - Max(updateAfter, 0) - updateEvery < UpdatesBefore(n, updateAfter, updateEvery)
    ensures UpdatesBefore(n, updateAfter, updateEvery) < n - Max(updateAfter, 0) + updateEvery
  {
    UpdatesBeforeExact(n, updateAfter, updateEvery);
  }

  // ---------------------------------------------------------------------------
  // Epoch wrap-up and saving

  /** Step `t` closes an epoch when `(t + 1) % steps_per_epoch == 0`. */
  function WrapUpAt(t: int, stepsPerEpoch: int): (r: Result<bool, ArithError>)
    ensures r.Failure? <==> stepsPerEpoch == 0
    ensures r.Success? ==> (r.value <==> (t + 1) % stepsPerEpoch == 0)
  {
    if stepsPerEpoch == 0 then Failure(ZeroDivisionError)
    else
      FloorModZeroIffDivides(t + 1, stepsPerEpoch);
      Success(FloorMod(t + 1, stepsPerEpoch) == 0)
  }

  /** The epoch number after step `t`: the number of whole epochs in the first `t + 1` steps. */
  function EpochOf(t: int, stepsPerEpoch: int): (e: int)
    requires stepsPerEpoch != 0
    ensures stepsPerEpoch > 0 ==> e * stepsPerEpoch <= t + 1 < e * stepsPerEpoch + stepsPerEpoch
    ensures stepsPerEpoch > 0 && t >= -1 ==> e >= 0
  {
    FloorDiv(t + 1, stepsPerEpoch)
  }

  /** At a wrap-up the epoch number counts the epochs completed so far. */
  lemma EpochAtWrapUp(t: nat, stepsPerEpoch: int)
    requires stepsPerEpoch > 0
    requires WrapUpAt(t, stepsPerEpoch) == Success(true)
    ensures EpochOf(t, stepsPerEpoch) >= 1
    ensures EpochOf(t, stepsPerEpoch) * stepsPerEpoch == t + 1
  {
    FloorAgreesForPositiveDivisor(t + 1, stepsPerEpoch);
  }

  /** The number of wrap-ups among steps `0 .. n-1`. */
  function WrapUpsBefore(n: nat, stepsPerEpoch: int): nat
    requires stepsPerEpoch != 0
  {
    if n == 0 then 0
    else WrapUpsBefore(n - 1, stepsPerEpoch) + (if WrapUpAt(n - 1, stepsPerEpoch).value then 1 else 0)
  }

  /** `n` steps contain `n / steps_per_epoch` wrap-ups, one per completed epoch. */
  lemma {:induction false} WrapUpsCount(n: nat, stepsPerEpoch: int)
    requires stepsPerEpoch > 0
    ensures WrapUpsBefore(n, stepsPerEpoch) == n / stepsPerEpoch
  {
    if n > 0 {
      WrapUpsCount(n - 1, stepsPerEpoch);
      ModSucc(n - 1, stepsPerEpoch);
    }
  }

  /** The last step of `epochs` full epochs wraps up epoch number `epochs`. */
  lemma LastStepWrapsUp(stepsPerEpoch: int, epochs: int)
    requires stepsPerEpoch > 0 && epochs >= 1
    ensures stepsPerEpoch * epochs - 1 >= 0
    ensures WrapUpAt(stepsPerEpoch * epochs - 1, stepsPerEpoch) == Success(true)
    ensures EpochOf(stepsPerEpoch * epochs - 1, stepsPerEpoch) == epochs
  {
    MulAtLeastFactor(epochs, stepsPerEpoch);
    assert stepsPerEpoch * epochs == epochs * stepsPerEpoch + 0;
    DivModUnique(stepsPerEpoch * epochs, stepsPerEpoch, epochs, 0);
    FloorAgreesForPositiveDivisor(stepsPerEpoch * epochs, stepsPerEpoch);
  }

  /**
   * The save decision at a wrap-up: every `save_freq`-th epoch and the final
   * one. The modulo is evaluated first, so a zero `save_freq` fails even at the
   * final epoch.
   */
  function SaveAt(epoch: int, saveFreq: int, epochs: int): (r: Result<bool, ArithError>)
    ensures r.Failure? <==> saveFreq == 0
    ensures r.Success? ==> (r.value <==> epoch % saveFreq == 0 || epoch == epochs)
    ensures r.Success? && epoch == epochs ==> r.value
    ensures saveFreq == 1 || saveFreq == -1 ==> r == Success(true)
  {
    if saveFreq == 0 then Failure(ZeroDivisionError)
    else
      FloorModZeroIffDivides(epoch, saveFreq);
      Success(FloorMod(epoch, saveFreq) == 0 || epoch == epochs)
  }
}

=== FILE: training_loop.dfy ===
/**
 * The `ddpg` interaction loop as a state machine. One `Step` is one iteration
 * of the main `for t in range(total_steps)` loop: choose an action, take the
 * environment's reply, store the transition, handle the end of an episode,
 * decide the gradient updates and the epoch wrap-up. Everything external (the
 * environment, the networks, the random draws) arrives as a `StepInput`.
 */
module TrainingLoop {
  import opened Wrappers
  import opened PyArith
  import opened Schedule
  import opened Agent
  import RB = ReplayBuffer

  type Action = seq<real>

  /** The hyper-parameters of `ddpg` that the loop's control flow reads. */
  datatype Config = Config(
    stepsPerEpoch: int, epochs: int, replaySize: int, batchSize: int,
    startSteps: int, updateAfter: int, updateEvery: int, actNoise: real,
    maxEpLen: int, saveFreq: int, actLimit: real)

  /** What the loop can raise: a division by zero or a numpy error from the buffer. */
  datatype LoopError = ArithFailure(arith: ArithError) | BufferFailure(buffer: RB.Error)

  /**
   * The outside world's part of one step: the uniformly sampled action, the
   * policy's output and the Gaussian noise for `get_action`, the environment's
   * `step` reply, the raw dataset output stored with the transition
   * (`dataset_outputs[playhead][0]`), and the observation `reset` would return.
   */
  datatype StepInput<O, R> = StepInput(
    sample: Action, policyOut: Action, noise: Action,
    nextObs: O, reward: real, done: bool, raw: R, resetObs: O)

  /** The loop's mutable state: step counter, current observation, episode accumulators, buffer. */
  datatype State<O, R> = State(t: int, obs: O, epRet: real, epLen: int, buffer: RB.Buffer<R, O, Action, real>)

  /**
   * What one step did: whether the action was random, the transition stored,
   * whether the episode ended (and its length and return at that point), how
   * many batch updates ran, and whether the step wrapped up an epoch and saved.
   */
  datatype Report<O, R> = Report(
    t: int, randomAction: bool, stored: RB.Transition<R, O, Action, real>,
    episodeEnded: bool, lenAfterStep: int, retAfterStep: real,
    updates: nat, wrapUp: bool, epoch: int, saved: bool)

  /** Every action component has the same per-dimension shape as the noise draw. */
  predicate Shaped<O, R>(inp: StepInput<O, R>) {
    |inp.noise| == |inp.policyOut|
  }

  /**
   * The loop invariant: a valid buffer, a non-negative step counter and
   * episode length, and (for a positive limit) an episode length below
   * `max_ep_len` between steps.
   */
  predicate Inv<O, R>(cfg: Config, s: State<O, R>) {
    && s.t >= 0
    && RB.Valid(s.buffer)
    && 0 <= s.epLen
    && (cfg.maxEpLen >= 1 ==> s.epLen < cfg.maxEpLen)
  }

  /** Hyper-parameters under which no step can divide by zero or pass numpy a negative shape. */
  predicate Sane(cfg: Config) {
    cfg.stepsPerEpoch != 0 && cfg.updateEvery != 0 && cfg.batchSize >= 0 && cfg.saveFreq != 0
  }

  /**
   * A report agrees with the schedule rules for its step `t`: random iff
   * `t <= start_steps`, the update count of `UpdatesAt`, the wrap-up, epoch and
   * save decision of `WrapUpAt`, `EpochOf` and `SaveAt`, and the episode
   * bookkeeping (length in `[1, max_ep_len]` just after the step, done flag
   * masked at the limit, stored done only on an ended episode).
   */
  predicate Scheduled<O, R>(cfg: Config, rep: Report<O, R>) {
    && cfg.stepsPerEpoch != 0
    && (rep.randomAction <==> !UsesPolicy(rep.t, cfg.startSteps))
    && UpdatesAt(rep.t, cfg.updateAfter, cfg.updateEvery) == Success(rep.updates)
    && WrapUpAt(rep.t, cfg.stepsPerEpoch) == Success(rep.wrapUp)
    && rep.epoch == EpochOf(rep.t, cfg.stepsPerEpoch)
    && (rep.wrapUp ==> SaveAt(rep.epoch, cfg.saveFreq, cfg.epochs) == Success(rep.saved))
    && (!rep.wrapUp ==> !rep.saved)
    && 1 <= rep.lenAfterStep
    && (cfg.maxEpLen >= 1 ==> rep.lenAfterStep <= cfg.maxEpLen)
    && (rep.lenAfterStep == cfg.maxEpLen ==> rep.episodeEnded && !rep.stored.done)
    && (rep.stored.done ==> rep.episodeEnded)
  }

  /** Step `t` runs batch updates: `t >= update_after` and `update_every` divides it (a positive one). */
  predicate UpdateStep(cfg: Config, t: int) {
    t >= cfg.updateAfter && cfg.updateEvery > 0 && t % cfg.updateEvery == 0
  }

  /** One iteration of the main loop at step `s.t`. */
  function Step<O, R>(cfg: Config, s: State<O, R>, inp: StepInput<O, R>)
    : (r: Result<(State<O, R>, Report<O, R>), LoopError>)
    requires Inv(cfg, s) && Shaped(inp)
    ensures cfg.stepsPerEpoch == 0 ==> r == Failure(ArithFailure(ZeroDivisionError))
    ensures cfg.stepsPerEpoch != 0 && s.buffer.maxSize == 0 ==> r == Failure(BufferFailure(RB.IndexOutOfBounds))
    ensures Sane(cfg) && s.buffer.maxSize > 0 ==> r.Success?
    ensures r.Success? ==> Inv(cfg, r.value.0) && r.value.0.t == s.t + 1
    ensures r.Success? ==> var rep := r.value.1;
      && rep.t == s.t
      && Scheduled(cfg, rep)
      && rep.stored.act == (if rep.randomAction then inp.sample
                            else GetAction(inp.policyOut, cfg.actNoise, inp.noise, cfg.actLimit))
      && rep.stored.obs == s.obs && rep.stored.nextObs == inp.nextObs
      && rep.stored.rew == inp.reward && rep.stored.raw == inp.raw
      && (rep.stored.done <==> inp.done && s.epLen + 1 != cfg.maxEpLen)
      && (rep.episodeEnded <==> inp.done || s.epLen + 1 == cfg.maxEpLen)
      && rep.lenAfterStep == s.epLen + 1 && rep.retAfterStep == s.epRet + inp.reward
    ensures r.Success? ==> var (next, rep) := r.value;
      && RB.Store(s.buffer, rep.stored) == Success(next.buffer)
      && (rep.episodeEnded ==> next.obs == inp.resetObs && next.epLen == 0 && next.epRet == 0.0)
      && (!rep.episodeEnded ==> next.obs == inp.nextObs && next.epLen == s.epLen + 1
                                && next.epRet == s.epRet + inp.reward)
  {
    if cfg.stepsPerEpoch == 0 then Failure(ArithFailure(ZeroDivisionError))
    else
      var random := !UsesPolicy(s.t, cfg.startSteps);
      var a := if random then inp.sample else GetAction(inp.policyOut, cfg.actNoise, inp.noise, cfg.actLimit);
      var epRet := s.epRet + inp.reward;
      var epLen := s.epLen + 1;
      var d := MaskedDone(inp.done, epLen, cfg.maxEpLen);
      var tr := RB.Transition(inp.raw, s.obs, a, inp.reward, inp.nextObs, d);
      var stored := RB.Store(s.buffer, tr);
      if stored.Failure? then Failure(BufferFailure(stored.error))
      else
        var ended := EpisodeEnds(d, epLen, cfg.maxEpLen);
        var next :=
          if ended then State(s.t + 1, inp.resetObs, 0.0, 0, stored.value)
          else State(s.t + 1, inp.nextObs, epRet, epLen, stored.value);
        var updates := UpdatesAt(s.t, cfg.updateAfter, cfg.updateEvery);
        if updates.Failure? then Failure(ArithFailure(updates.error))
        else if updates.value > 0 && cfg.batchSize < 0 then Failure(BufferFailure(RB.NegativeDimensions))
        else
          var wrap := WrapUpAt(s.t, cfg.stepsPerEpoch).value;
          var epoch := EpochOf(s.t, cfg.stepsPerEpoch);
          var save := if wrap then SaveAt(epoch, cfg.saveFreq, cfg.epochs) else Success(false);
          if save.Failure? then Failure(ArithFailure(save.error))
          else Success((next, Report(s.t, random, tr, ended, epLen, epRet, updates.value, wrap, epoch, save.value)))
  }

  /**
   * A step fails exactly on the five hazards the loop body meets, and reports
   * the first one in source order: a zero `steps_per_epoch` (the epoch
   * number at the top of the loop divides by it), a zero-capacity
   * buffer at `store`, a zero `update_every` once `t >= update_after`, a
   * negative `batch_size` at an update step, and a zero `save_freq` at a
   * wrap-up.
   */
  lemma StepOutcome<O, R>(cfg: Config, s: State<O, R>, inp: StepInput<O, R>)
    requires Inv(cfg, s) && Shaped(inp)
    ensures Step(cfg, s, inp).Success? <==>
      && cfg.stepsPerEpoch != 0
      && s.buffer.maxSize > 0
      && !(s.t >= cfg.updateAfter && cfg.updateEvery == 0)
      && !(UpdateStep(cfg, s.t) && cfg.batchSize < 0)
      && !((s.t + 1) % cfg.stepsPerEpoch == 0 && cfg.saveFreq == 0)
    ensures var r := Step(cfg, s, inp);
      r.Failure? ==>
        r.error == (if cfg.stepsPerEpoch == 0 then ArithFailure(ZeroDivisionError)
                    else if s.buffer.maxSize == 0 then BufferFailure(RB.IndexOutOfBounds)
                    else if UpdateStep(cfg, s.t) && cfg.batchSize < 0 then BufferFailure(RB.NegativeDimensions)
                    else ArithFailure(ZeroDivisionError))
  {
  }


  /** Run one step per input, in order, from state `s0`; the first failure stops the run. */
  function Run<O, R>(cfg: Config, s0: State<O, R>, ins: seq<StepInput<O, R>>)
    : (r: Result<(State<O, R>, seq<Report<O, R>>), LoopError>)
    requires Inv(cfg, s0)
    requires forall i :: 0 <= i < |ins| ==> Shaped(ins[i])
    ensures r.Success? ==> Inv(cfg, r.value.0) && r.value.0.t == s0.t + |ins|
    ensures r.Success? ==> |r.value.1| == |ins|
    ensures r.Success? ==> forall i :: 0 <= i < |ins| ==> r.value.1[i].t == s0.t + i
    ensures r.Success? ==> forall i :: 0 <= i < |ins| ==> Scheduled(cfg, r.value.1[i])
    ensures r.Success? ==> r.value.0.buffer.maxSize == s0.buffer.maxSize
    decreases |ins|
  {
    if |ins| == 0 then Success((s0, []))
    else
      var prev := Run(cfg, s0, ins[..|ins| - 1]);
      if prev.Failure? then Failure(prev.error)
      else
        var (s, reps) := prev.value;
        var step := Step(cfg, s, ins[|ins| - 1]);
        if step.Failure? then Failure(step.error)
        else Success((step.value.0, reps + [step.value.1]))
  }

  /** The transitions a run stored, in order. */
  function Stored<O, R>(reps: seq<Report<O, R>>): (ts: seq<RB.Transition<R, O, Action, real>>)
    ensures |ts| == |reps|
    ensures forall i :: 0 <= i < |reps| ==> ts[i] == reps[i].stored
  {
    seq(|reps|, i requires 0 <= i < |reps| => reps[i].stored)
  }

  /** A run with sane hyper-parameters and a buffer of positive capacity never fails. */
  lemma {:induction false} RunSucceeds<O, R>(cfg: Config, s0: State<O, R>, ins: seq<StepInput<O, R>>)
    requires Inv(cfg, s0) && forall i :: 0 <= i < |ins| ==> Shaped(ins[i])
    requires Sane(cfg) && s0.buffer.maxSize > 0
    ensures Run(cfg, s0, ins).Success?
    decreases |ins|
  {
    if |ins| > 0 {
      RunSucceeds(cfg, s0, ins[..|ins| - 1]);
    }
  }

  /** The buffer after a run is the initial buffer with the run's transitions stored in order. */
  lemma {:induction false} RunStoresInOrder<O, R>(cfg: Config, s0: State<O, R>, ins: seq<StepInput<O, R>>)
    requires Inv(cfg, s0) && forall i :: 0 <= i < |ins| ==> Shaped(ins[i])
    requires s0.buffer.maxSize > 0
    requires Run(cfg, s0, ins).Success?
    ensures Run(cfg, s0, ins).value.0.buffer == RB.StoreAll(s0.buffer, Stored(Run(cfg, s0, ins).value.1))
    decreases |ins|
  {
    if |ins| > 0 {
      var prefix := ins[..|ins| - 1];
      RunStoresInOrder(cfg, s0, prefix);
      var (s, reps) := Run(cfg, s0, prefix).value;
      var step := Step(cfg, s, ins[|ins| - 1]);
      assert Run(cfg, s0, ins) == Success((step.value.0, reps + [step.value.1]));
      var ts, ts' := Stored(reps), Stored(reps + [step.value.1]);
      assert ts'[..|ts|] == ts && ts'[|ts|] == step.value.1.stored;
      assert RB.StoreAll(s0.buffer, ts') == RB.Store(RB.StoreAll(s0.buffer, ts), step.value.1.stored).value;
    }
  }

  // ---------------------------------------------------------------------------
  // Whole training runs

  /** `range(steps_per_epoch * epochs)`: empty when the product is negative. */
  function TotalSteps(cfg: Config): (n: nat)
    ensures cfg.stepsPerEpoch * cfg.epochs < 0 ==> n == 0
  {
    if cfg.stepsPerEpoch * cfg.epochs < 0 then 0 else cfg.stepsPerEpoch * cfg.epochs
  }

  /** A run of `epochs` epochs of positive length closes exactly `epochs` epochs. */
  lemma TotalStepsWrapUps(cfg: Config)
    requires cfg.stepsPerEpoch > 0 && cfg.epochs >= 0
    ensures WrapUpsBefore(TotalSteps(cfg), cfg.stepsPerEpoch) == cfg.epochs
  {
    var n := TotalSteps(cfg);
    WrapUpsCount(n, cfg.stepsPerEpoch);
    assert n == cfg.epochs * cfg.stepsPerEpoch + 0;
    DivModUnique(n, cfg.stepsPerEpoch, cfg.epochs, 0);
  }


  /** The state before the first step: counter 0, `reset`'s observation, empty accumulators. */
  function Start<O, R>(obs0: O, b: RB.Buffer<R, O, Action, real>): State<O, R> {
    State(0, obs0, 0.0, 0, b)
  }

  /**
   * `ddpg` minus its numerics: allocate a buffer of `replay_size` zero rows
   * (`zeroRaw`, `zeroObs` and `zeroAct` are the all-zero vectors of the
   * observation and action dimensions), then run `steps_per_epoch * epochs` steps from the first observation.
   */
  function Train<O, R>(cfg: Config, obs0: O, zeroRaw: R, zeroObs: O, zeroAct: Action, ins: seq<StepInput<O, R>>)
    : (r: Result<(State<O, R>, seq<Report<O, R>>), LoopError>)
    requires |ins| == TotalSteps(cfg)
    requires forall i :: 0 <= i < |ins| ==> Shaped(ins[i])
    ensures cfg.replaySize < 0 ==> r == Failure(BufferFailure(RB.NegativeDimensions))
    ensures Sane(cfg) && cfg.replaySize > 0 ==> r.Success?
    ensures r.Success? ==> r.value.0.t == |ins| && |r.value.1| == |ins|
    ensures r.Success? ==> forall i :: 0 <= i < |ins| ==> r.value.1[i].t == i && Scheduled(cfg, r.value.1[i])
  {
    var init := RB.Init(cfg.replaySize, zeroRaw, zeroObs, zeroAct, 0.0);
    if init.Failure? then Failure(BufferFailure(init.error))
    else
      var s0 := Start(obs0, init.value);
      assert Sane(cfg) && cfg.replaySize > 0 ==> Run(cfg, s0, ins).Success? by {
        if Sane(cfg) && cfg.replaySize > 0 {
          RunSucceeds(cfg, s0, ins);
        }
      }
      Run(cfg, s0, ins)
  }

  /**
   * After a successful training run over a buffer of capacity `k`, the buffer
   * holds exactly the last `min(n, k)` stored transitions, transition `j` at
   * slot `CursorAfter(j, k)` (that is, `j % k`), with the cursor at
   * `CursorAfter(n, k)`; slots never reached keep their zeros.
   */
  lemma TrainBufferContents<O, R>(cfg: Config, obs0: O, zeroRaw: R, zeroObs: O, zeroAct: Action, ins: seq<StepInput<O, R>>)
    requires |ins| == TotalSteps(cfg)
    requires forall i :: 0 <= i < |ins| ==> Shaped(ins[i])
    requires Sane(cfg) && cfg.replaySize > 0
    ensures Train(cfg, obs0, zeroRaw, zeroObs, zeroAct, ins).Success?
    ensures var (s, reps) := Train(cfg, obs0, zeroRaw, zeroObs, zeroAct, ins).value;
      && s.buffer.maxSize == cfg.replaySize
      && s.buffer.ptr == RB.CursorAfter(|ins|, cfg.replaySize)
      && s.buffer.size == (if |ins| < cfg.replaySize then |ins| else cfg.replaySize)
      && (forall j :: 0 <= j < |ins| && |ins| - cfg.replaySize <= j ==>
            RB.Slot(s.buffer, RB.CursorAfter(j, cfg.replaySize)) == reps[j].stored)
      && (forall i :: |ins| <= i < cfg.replaySize ==>
            RB.Slot(s.buffer, i) == RB.Transition(zeroRaw, zeroObs, zeroAct, 0.0, zeroObs, false))
  {
    var b := RB.Init(cfg.replaySize, zeroRaw, zeroObs, zeroAct, 0.0).value;
    var s0 := Start(obs0, b);
    RunSucceeds(cfg, s0, ins);
    RunStoresInOrder(cfg, s0, ins);
    RB.StoreAllWindow(b, Stored(Run(cfg, s0, ins).value.1));
  }

  // ---------------------------------------------------------------------------
  // Counting over a run's reports

  function RandomCount<O, R>(reps: seq<Report<O, R>>): nat {
    if |reps| == 0 then 0
    else RandomCount(reps[..|reps| - 1]) + (if reps[|reps| - 1].randomAction then 1 else 0)
  }

  function WrapUpCount<O, R>(reps: seq<Report<O, R>>): nat {
    if |reps| == 0 then 0
    else WrapUpCount(reps[..|reps| - 1]) + (if reps[|reps| - 1].wrapUp then 1 else 0)
  }

  function UpdateTotal<O, R>(reps: seq<Report<O, R>>): nat {
    if |reps| == 0 then 0
    else UpdateTotal(reps[..|reps| - 1]) + reps[|reps| - 1].updates
  }

  /** Reports numbered from step 0 that follow the schedule count exactly what the schedule predicts. */
  lemma {:induction false} CountsFollowSchedule<O, R>(cfg: Config, reps: seq<Report<O, R>>)
    requires cfg.stepsPerEpoch != 0
    requires forall i :: 0 <= i < |reps| ==> reps[i].t == i && Scheduled(cfg, reps[i])
    ensures RandomCount(reps) == RandomStepsBefore(|reps|, cfg.startSteps)
    ensures WrapUpCount(reps) == WrapUpsBefore(|reps|, cfg.stepsPerEpoch)
    ensures cfg.updateEvery > 0 ==> UpdateTotal(reps) == UpdatesBefore(|reps|, cfg.updateAfter, cfg.updateEvery)
  {
    if |reps| > 0 {
      var n := |reps| - 1;
      CountsFollowSchedule(cfg, reps[..n]);
      assert reps[n].t == n && Scheduled(cfg, reps[n]);
    }
  }

  /**
   * A full training run of `epochs >= 1` epochs wraps up exactly `epochs`
   * times, and its last step wraps up epoch number `epochs` and saves.
   */
  lemma TrainEpochs<O, R>(cfg: Config, obs0: O, zeroRaw: R, zeroObs: O, zeroAct: Action, ins: seq<StepInput<O, R>>)
    requires |ins| == TotalSteps(cfg)
    requires forall i :: 0 <= i < |ins| ==> Shaped(ins[i])
    requires cfg.stepsPerEpoch > 0 && cfg.epochs >= 1
    requires Sane(cfg) && cfg.replaySize > 0
    ensures Train(cfg, obs0, zeroRaw, zeroObs, zeroAct, ins).Success?
    ensures var reps := Train(cfg, obs0, zeroRaw, zeroObs, zeroAct, ins).value.1;
      && |reps| > 0
      && WrapUpCount(reps) == cfg.epochs
      && reps[|reps| - 1].wrapUp && reps[|reps| - 1].epoch == cfg.epochs && reps[|reps| - 1].saved
  {
    var reps := Train(cfg, obs0, zeroRaw, zeroObs, zeroAct, ins).value.1;
    var spe := cfg.stepsPerEpoch;
    LastStepWrapsUp(spe, cfg.epochs);
    CountsFollowSchedule(cfg, reps);
    WrapUpsCount(|reps|, spe);
    assert spe * cfg.epochs == cfg.epochs * spe + 0;
    DivModUnique(spe * cfg.epochs, spe, cfg.epochs, 0);
    var last := reps[|reps| - 1];
    assert last.t == spe * cfg.epochs - 1 && Scheduled(cfg, last);
  }

  /** Exactly `start_steps + 1` of a run's steps take a random action (all of them in a shorter run). */
  lemma TrainRandomSteps<O, R>(cfg: Config, obs0: O, zeroRaw: R, zeroObs: O, zeroAct: Action, ins: seq<StepInput<O, R>>)
    requires |ins| == TotalSteps(cfg)
    requires forall i :: 0 <= i < |ins| ==> Shaped(ins[i])
    requires Sane(cfg) && cfg.replaySize > 0
    ensures Train(cfg, obs0, zeroRaw, zeroObs, zeroAct, ins).Success?
    ensures var reps := Train(cfg, obs0, zeroRaw, zeroObs, zeroAct, ins).value.1;
      RandomCount(reps) ==
        if cfg.startSteps + 1 <= 0 then 0 else if cfg.startSteps + 1 < |reps| then cfg.startSteps + 1 else |reps|
  {
    var reps := Train(cfg, obs0, zeroRaw, zeroObs, zeroAct, ins).value.1;
    if |reps| > 0 {
      assert Scheduled(cfg, reps[0]);
      CountsFollowSchedule(cfg, reps);
    }
    RandomStepsCount(|reps|, cfg.startSteps);
  }

  /**
   * Over a run, once past `update_after`, the number of gradient updates stays
   * within `update_every` of the number of environment steps taken since.
   */
  lemma TrainUpdateRatio<O, R>(cfg: Config, obs0: O, zeroRaw: R, zeroObs: O, zeroAct: Action, ins: seq<StepInput<O, R>>)
    requires |ins| == TotalSteps(cfg)
    requires forall i :: 0 <= i < |ins| ==> Shaped(ins[i])
    requires cfg.updateEvery > 0 && |ins| >= Max(cfg.updateAfter, 0)
    requires Sane(cfg) && cfg.replaySize > 0
    ensures Train(cfg, obs0, zeroRaw, zeroObs, zeroAct, ins).Success?
    ensures var reps := Train(cfg, obs0, zeroRaw, zeroObs, zeroAct, ins).value.1;
      && |ins| - Max(cfg.updateAfter, 0) - cfg.updateEvery < UpdateTotal(reps)
      && UpdateTotal(reps) < |ins| - Max(cfg.updateAfter, 0) + cfg.updateEvery
  {
    var reps := Train(cfg, obs0, zeroRaw, zeroObs, zeroAct, ins).value.1;
    if |reps| > 0 {
      assert Scheduled(cfg, reps[0]);
      CountsFollowSchedule(cfg, reps);
    }
    UpdateRatio(|reps|, cfg.updateAfter, cfg.updateEvery);
  }

  // ---------------------------------------------------------------------------
  // Test episodes

  /**
   * The test rollout's loop `while not (d or ep_len == max_ep_len)` stops
   * before step `n` when `n` is the length limit or step `n - 1` reported done.
   */
  predicate StopsAt(dones: seq<bool>, maxEpLen: int, n: nat)
    requires n <= |dones|
  {
    n == maxEpLen || (n > 0 && dones[n - 1])
  }

  function Sum(xs: seq<real>): real {
    if |xs| == 0 then 0.0 else Sum(xs[..|xs| - 1]) + xs[|xs| - 1]
  }

  /**
   * One deterministic test episode in `test_agent`, given the done flags and
   * rewards the test environment would return step after step. The result is
   * the episode's length (the first `n` at which it stops) and its return, or
   * `None` when the supplied replies run out before the episode stops. No
   * time-limit masking happens at test time.
   */
  method TestEpisode(dones: seq<bool>, rewards: seq<real>, maxEpLen: int) returns (r: Option<(nat, real)>)
    requires |rewards| == |dones|
    ensures r.Some? ==> r.value.0 <= |dones| && StopsAt(dones, maxEpLen, r.value.0)
    ensures r.Some? ==> forall m :: 0 <= m < r.value.0 ==> !StopsAt(dones, maxEpLen, m)
    ensures r.Some? ==> r.value.1 == Sum(rewards[..r.value.0])
    ensures r.Some? && maxEpLen >= 0 ==> r.value.0 <= maxEpLen
    ensures r.None? <==> forall m :: 0 <= m <= |dones| ==> !StopsAt(dones, maxEpLen, m)
  {
    var d, epRet, epLen := false, 0.0, 0;
    while !(d || epLen == maxEpLen)
      invariant 0 <= epLen <= |dones|
      invariant d == (epLen > 0 && dones[epLen - 1])
      invariant forall m :: 0 <= m < epLen ==> !StopsAt(dones, maxEpLen, m)
      invariant epRet == Sum(rewards[..epLen])
      invariant maxEpLen >= 0 ==> epLen <= maxEpLen
      decreases |dones| - epLen
    {
      if epLen == |dones| {
        assert !StopsAt(dones, maxEpLen, epLen);
        return None;
      }
      d := dones[epLen];
      assert rewards[..epLen + 1][..epLen] == rewards[..epLen];
      epRet := epRet + rewards[epLen];
      epLen := epLen + 1;
    }
    assert StopsAt(dones, maxEpLen, epLen);
    r := Some((epLen, epRet));
  }
}

=== FILE: wrappers.dfy ===
/** Failure-carrying result types shared by the other modules. */
module Wrappers {

  /** A value that may be absent. */
  datatype Option<+T> = None | Some(value: T)

  /** Either a value or the error the Python program would raise instead. */
  datatype Result<+T, +E> = Success(value: T) | Failure(error: E)
}
